=== FILE: README.md ===
# Quiz session model

A Dafny model of the timed multiple-choice quiz in `Praktic_6.py`. A test
(title, time limit in seconds, questions with options and an answer key) is
loaded from a parsed JSON document with defaults filled in. A session shows
one question at a time. The user picks an option per question and moves with
"previous"/"next". A once-a-second timer counts down and submits the test
when it reaches zero. Submitting counts the stored answers that match their
key and reports a percentage.

The `QuizFrame` class is modelled without its widgets. Its state is the
immutable record `QuizSession.Session`: test, displayed position `index`,
answer record `answers` (one `Option<int>` per question), `pending` (the radio
group's variable, `-1` for no selection) and `remaining` (seconds). Each
handler is a pure step function. `Events.Run` feeds any sequence of clicks and
timer firings through them.

Modules:

- `Wrappers`: `Option` and `Result`.
- `TestData`: `Question` and `Test`.
- `Loader`: default-filling for an already parsed document.
- `Scoring`: the correct-answer count and the percentage.
- `QuizSession`: the state, the handlers, the timer tick and session start.
- `Countdown`: repeated timer firings.
- `Events`: arbitrary event sequences and two worked examples.

Things worth knowing, all proved:

- Clicking a radio button stores the choice at once (the button's command is
  `_store_answer`). Every reachable session therefore satisfies
  `QuizSession.Valid`: the radio group always shows exactly the stored answer
  of the displayed question. So the store that `_previous`, `_next` and
  `_submit` do first never changes a reachable session
  (`QuizSession.StoreIsRedundant`). It is a safeguard, not a necessity.
- The timer's first tick runs inside the constructor. With a limit of `T > 0`,
  the test is submitted on the `T + 1`-th firing, counting the constructor's
  tick. With a limit of zero or below (the file may hold one), it is submitted
  at once with an empty record. That submission happens inside the
  constructor, whose `on_back` destroys the new frame (lines 177, 214-215), so
  the `quiz.pack(...)` call that follows at line 242 acts on a destroyed
  widget. The model ends at the `Finished` step.

Behaviour of the code worth knowing:

- The default title is `"Тест"`.
- The countdown submits when it is `<= 0`, not only at exactly zero.
- A question object without `"text"` or `"options"` raises `KeyError` out of
  `load_test_from_file`, outside its `try`. It does not yield "no test", and
  `Loader.LoadTest` reports it as `Raised`.
- The session has no ended state and no guard against a second submission.
  In the model `Finished` is terminal: `Events.Run` feeds events through
  `Events.Apply` in order and passes nothing on after a submission. Leaving
  mid-test (`_back_to_menu`) is not modelled.

## Model

| member | source | states |
|---|---|---|
| `Loader.FillQuestions` | Praktic_6.py:79-82 | Succeeds iff every question object has both "text" and "options". On success it keeps the order and length and applies the answer default 0. Otherwise it fails with the key error of the first incomplete question. |
| `Loader.LoadTest` | Praktic_6.py:69-83 | No parsed document gives no test. A missing "text"/"options" key raises. Otherwise the title defaults to "Тест", the time to 300 and the questions to empty. Each loaded question keeps the parsed text and options, and its answer defaults to 0. |
| `Scoring.CountCorrect` | Praktic_6.py:169-173 | The number of matching answers is at most the number of questions. It equals that number iff every question's stored answer is present and equals its key. |
| `Scoring.CountIsCardinality` | Praktic_6.py:169-173 | The count is exactly the number of positions whose answer is present and equals the key. |
| `Scoring.Percent` | Praktic_6.py:174 | 0 when there are no questions. Otherwise it is the floor of correct*100/total: p*total <= correct*100 < (p+1)*total. It lies in [0,100] and is 100 iff every answer is correct. |
| `Scoring.ScoreOf` | Praktic_6.py:167-174 | The total is the question count. The count of correct answers is the number of positions whose answer is present and equals the key, so correct <= total. The percentage is `Percent(correct, total)`: in [0,100], and 100 iff the test is non-empty and every answer is correct. |
| `Scoring.OutOfRangeKeyNeverCounts` | Praktic_6.py:131-139 | An answer key that names no option never matches an answer chosen from the radio buttons. |
| `Scoring.Tally` | Praktic_6.py:169-174 | The loop over the questions counts exactly the correct positions and yields the same score as the reference count. |
| `QuizSession.Init` | Praktic_6.py:92-99 | A new session is at question 0 with no selection, every answer absent, one entry per question and the full time limit. It is a reachable state when the limit is not negative. |
| `QuizSession.Display` | Praktic_6.py:124-130 | Showing a question resets the radio group to that question's stored answer, or to no selection (-1) when it has none. Test, position, record and time are unchanged. A store right after it changes nothing. The result is reachable iff the time is not negative and every stored answer names an option. |
| `QuizSession.StoreAnswer` | Praktic_6.py:143-146 | A selection >= 0 is written into the displayed question's entry. With no selection the record is unchanged, so a stored answer is never cleared. No other entry, and nothing else, changes. |
| `QuizSession.StoreIsRedundant` | Praktic_6.py:129-146 | In a reachable session storing changes nothing, because the radio group always mirrors the stored answer. |
| `QuizSession.Select` | Praktic_6.py:131-139 | Clicking option k stores k for the displayed question at once and selects it. Other entries, position and time are unchanged, and reachability is preserved. |
| `QuizSession.Previous` | Praktic_6.py:155-159 | Commits the selection first. It moves back one question and shows that question's stored answer, or stays put at question 0. The position stays in range and reachability is preserved. |
| `QuizSession.Next` | Praktic_6.py:161-165 | Commits the selection first. It moves on one question and shows that question's stored answer, or stays put at the last question. The position stays in range and reachability is preserved. |
| `QuizSession.ButtonsEnabledIffTheyMove` | Praktic_6.py:148-150 | "Previous" is enabled iff pressing it changes the question, and the same holds for "next". Both keep the position in [0, N-1]. |
| `QuizSession.SelectNextPreviousRoundTrip` | Praktic_6.py:129-165 | Choosing k, then next, then previous always leaves k stored for the question it was chosen on. When "next" was enabled, it returns to that question with k shown. At the last question "next" stays put and "previous" moves one back (or stays at 0 in a one-question test). |
| `QuizSession.NavigationRoundTrip` | Praktic_6.py:155-165 | In a reachable session, next then previous is the identity wherever "next" is enabled. Previous then next is the identity wherever "previous" is enabled. |
| `QuizSession.Submit` | Praktic_6.py:167-174 | Scores the record after committing the selection. It counts exactly the correct positions, with total = N and correct <= N. The percentage is `Percent(correct, N)`, in [0,100]. In a reachable session it equals the score of the record as it stands. |
| `QuizSession.Tick` | Praktic_6.py:187-195 | At zero or below it auto-submits with the timeout flag and does not decrement. Otherwise it takes exactly one second off and changes nothing else, keeping the session reachable. |
| `QuizSession.Clock` | Praktic_6.py:188 | The minutes and seconds shown satisfy mins*60 + secs == remaining with 0 <= secs < 60 (floor divmod). |
| `QuizSession.NothingAnsweredScoresZero` | Praktic_6.py:167-174 | With nothing stored and nothing selected, the score is 0 correct and 0 percent. |
| `QuizSession.Start` | Praktic_6.py:92-100 | Building the frame runs the first tick. A limit <= 0 submits at once with the timeout flag and scores 0 of N. Otherwise it gives a reachable session at question 0 with nothing answered and T-1 seconds left. |
| `QuizSession.StartTest` | Praktic_6.py:233-242 | A session is started iff a test was loaded and it has at least one question. |
| `Countdown.Ticks` | Praktic_6.py:187-195 | Repeated firings of the self-re-arming timer end a session only by timing out, with the score a manual submit gives. A session still running after n firings has lost exactly n seconds, never going below zero, and nothing else changed. |
| `Countdown.CountsDown` | Praktic_6.py:187-195 | Up to `remaining` firings only decrement the countdown, by exactly one each, never below zero, and leave the rest of the session alone. |
| `Countdown.TimesOutAfterRemaining` | Praktic_6.py:187-195 | From a countdown T >= 0, every run of at most T firings leaves the session running. Firing T+1 auto-submits with the timeout flag and the same score a manual submit gives. |
| `Countdown.SessionTimeline` | Praktic_6.py:184-195 | Left alone, a session with limit T > 0 reaches 0 seconds after the constructor's tick plus T-1 firings. The next firing submits an empty record: 0 of N, timed out. |
| `Events.Apply` | Praktic_6.py:113-195 | A step finishes iff it is "submit", or a timer firing with no time left. A finished step carries the submit score and is flagged as a timeout iff the timer caused it. A running step keeps the test, never adds time, never clears an answer and preserves reachability. |
| `Events.RunInvariant` | Praktic_6.py:143-195 | Under any sequence of clicks and firings, a running session stays reachable, keeps its test, never gains time and never loses a stored answer. A finished one reports a score over all N questions with the percentage in [0,100]. |
| `Events.ExampleAllCorrect` | Praktic_6.py:131-174 | Two questions keyed 1 and 0: choosing 1, next, choosing 0, submit scores 2 of 2, 100 percent. |
| `Events.ExampleNothingAnswered` | Praktic_6.py:167-174 | The same test submitted straight away scores 0 of 2, 0 percent. |

## Left out

- Scoring.Percent: the source computes `int(correct / total * 100)` in floating point. The model uses exact floor division. The two can differ: `int(29 / 100 * 100)` is 28, not 29. `Scoring.ScoreOf`, `Scoring.Tally` and `QuizSession.Submit` inherit this idealisation.
- Reading and decoding the file (`_read_text_with_fallback`, lines 30-66) is file I/O plus a foreign charset-detection library. It is left out.
- The path check and JSON parsing (lines 70-78) are left out. `Loader.LoadTest` receives the parsed document, or `None` when any of these steps gave up.
- Python's `int(...)` coercion of non-integer JSON values for "answer" and "time_seconds" is not modelled; both arrive as integers. A document that is not a JSON object (where `data.get` would raise) is not modelled either.
- All widget building, layout, labels and message boxes (lines 102-122, 125-128, 131-136, 138-139, 141, 152-153, 175, 189, 191) are rendering only. Line 137 (the radio button's store command) is modelled by `QuizSession.Select`, and line 140 by the button predicates of `QuizSession.ButtonsEnabledIffTheyMove`.
- Events.Run: submission is terminal in the model, but in the code the timer armed at line 195 is cancelled only after the result dialog of line 175 closes (line 176). If the countdown reaches zero while that dialog, or the confirmation of line 180, is open, `_tick` submits again: a timeout notice, a second result dialog and a second `on_back` follow. The model does not represent it.
- Loader.LoadTest: an absent key and a key that is present with the JSON value `null` are both `None` in the model. The code treats them differently. `"title": null` keeps the null title instead of "Тест", because the default is used only for a missing key (line 83). `"questions": null`, a question that is not an object, or a wrongly typed "text" or "options" raise a `TypeError` or give a malformed question (lines 80-81). Present-but-null and wrongly typed values are not modelled.
- QuizSession.StartTest: a load that ended in `Raised` gives no session, the same `None` as a missing or empty test. The code differs in what the user sees: the `KeyError` leaves `_start_test` before the error dialog of line 237, so Tk reports it as a callback error, no dialog appears, and the menu stays. The dialogs themselves are not modelled.
- Timer scheduling with `after`/`after_cancel` (lines 195-200) is left out. `QuizSession.Tick` is a step the environment calls once a second.
- `_back_to_menu` (lines 179-182) is a confirmation dialog followed by `on_back`. It leaves the session without scoring it and has no state logic of its own.
- The main menu and window (lines 203-232, 245-247) are rendering only. Of `_start_test`, only the guard that refuses a missing or empty test is modelled.

=== FILE: countdown.dfy ===
/** The countdown driven by `_tick` re-arming itself once a second: how
    many ticks a session lives through before it is submitted. */
module Countdown {
  import opened TestData
  import opened QuizSession

  /** `n` timer firings in a row, stopping once the session is submitted
      (the timer re-arms itself after every firing that does not submit).
      Firings alone end a session only by timing out, with the score a
      manual submit gives; a session still running has lost exactly `n`
      seconds and nothing else. */
  function Ticks(s: Session, n: nat): (r: Step)
    requires WellFormed(s)
    ensures r.Finished? ==> r.timedOut && r.score == Submit(s)
    ensures r.Running? ==> r.session == s.(remaining := s.remaining - n)
    ensures r.Running? && n > 0 ==> r.session.remaining >= 0
    decreases n
  {
    if n == 0 then Running(s)
    else
      match Tick(s)
      case Running(t) => Ticks(t, n - 1)
      case Finished(score, timedOut) => Finished(score, timedOut)
  }

  /** Up to `remaining` firings only take seconds off: the session is
      otherwise untouched and the countdown never goes below zero. */
  lemma {:induction false} CountsDown(s: Session, n: nat)
    requires WellFormed(s) && n <= s.remaining
    ensures Ticks(s, n) == Running(s.(remaining := s.remaining - n))
    ensures Ticks(s, n).session.remaining >= 0
    decreases n
  {
    if n > 0 {
      var t := s.(remaining := s.remaining - 1);
      assert Tick(s) == Running(t);
      CountsDown(t, n - 1);
      assert t.(remaining := t.remaining - (n - 1)) == s.(remaining := s.remaining - n);
    }
  }

  /** From a countdown of `T >= 0`, exactly `T` firings decrement it and the
      next one submits, scoring the same record as a manual submit would. */
  lemma {:induction false} TimesOutAfterRemaining(s: Session)
    requires WellFormed(s) && s.remaining >= 0
    ensures forall n: nat :: n <= s.remaining ==> Ticks(s, n).Running?
    ensures Ticks(s, s.remaining + 1) == Finished(Submit(s), true)
  {
    forall n: nat | n <= s.remaining
      ensures Ticks(s, n).Running?
    {
      CountsDown(s, n);
    }
    TicksSplit(s, s.remaining);
    CountsDown(s, s.remaining);
    var z := s.(remaining := 0);
    assert Tick(z) == Finished(Submit(z), true);
    assert Submit(z) == Submit(s);
  }

  /** One more firing after `n` running ones is the firing of the state they
      reached. */
  lemma {:induction false} TicksSplit(s: Session, n: nat)
    requires WellFormed(s) && Ticks(s, n).Running?
    ensures WellFormed(Ticks(s, n).session)
    ensures Ticks(s, n + 1) == Tick(Ticks(s, n).session)
    decreases n
  {
    if n > 0 {
      match Tick(s)
      case Running(t) =>
        TicksSplit(t, n - 1);
      case Finished(_, _) =>
    }
  }

  /** A whole session left alone: the constructor's own tick plus `T - 1`
      more bring a limit of `T > 0` down to zero, and the next firing
      submits an empty record with the timeout notice. */
  lemma SessionTimeline(test: Test)
    requires |test.questions| >= 1 && test.timeSeconds > 0
    ensures Start(test).Running?
    ensures Ticks(Start(test).session, test.timeSeconds - 1).Running?
    ensures Ticks(Start(test).session, test.timeSeconds - 1).session.remaining == 0
    ensures var end := Ticks(Start(test).session, test.timeSeconds);
      end.Finished? && end.timedOut && end.score.correct == 0 && end.score.total == |test.questions|
  {
    var s := Start(test).session;
    CountsDown(s, s.remaining);
    TimesOutAfterRemaining(s);
    NothingAnsweredScoresZero(s);
  }
}

=== FILE: events.dfy ===
/** The quiz screen as a whole: the user's clicks and the timer's firings
    arrive one at a time and each goes to its handler. */
module Events {
  import opened TestData
  import opened Scoring
  import opened QuizSession

  /** What can happen to a running session: a click on the radio button of
      an option, one of the three buttons, or the timer firing. */
  datatype Event = Choose(option: int) | PressPrevious | PressNext | PressSubmit | TimerFired

  /** `s`'s stored answers are all still stored in `t` (perhaps changed). */
  predicate KeepsAnswers(s: Session, t: Session)
    requires |s.answers| == |t.answers|
  {
    forall i :: 0 <= i < |s.answers| && s.answers[i].Some? ==> t.answers[i].Some?
  }

  /** One event handled. A click on an option the displayed question does
      not have cannot happen (there is no such button) and changes nothing. */
  function Apply(s: Session, e: Event): (r: Step)
    requires WellFormed(s)
    ensures r.Finished? <==> e.PressSubmit? || (e.TimerFired? && s.remaining <= 0)
    ensures r.Finished? ==> r.score == Submit(s) && (r.timedOut <==> e.TimerFired?)
    ensures r.Running? ==> WellFormed(r.session) && r.session.test == s.test && r.session.remaining <= s.remaining
    ensures r.Running? ==> KeepsAnswers(s, r.session)
    ensures r.Running? && Valid(s) ==> Valid(r.session)
  {
    match e
    case Choose(k) => if IsOption(s.test.questions[s.index], k) then Running(Select(s, k)) else Running(s)
    case PressPrevious => Running(Previous(s))
    case PressNext => Running(Next(s))
    case PressSubmit => Finished(Submit(s), false)
    case TimerFired => Tick(s)
  }

  /** A sequence of events handled in order. A submission ends the run:
      the model treats it as terminal and passes no later event on. */
  function Run(s: Session, events: seq<Event>): (r: Step)
    requires WellFormed(s)
    decreases |events|
  {
    if |events| == 0 then Running(s)
    else
      match Apply(s, events[0])
      case Running(t) => Run(t, events[1..])
      case Finished(score, timedOut) => Finished(score, timedOut)
  }

  /** Whatever the user and the timer do, a running session stays
      reachable, keeps its test, never gains time and never loses an
      answer; a finished one reports a score over all the questions. */
  lemma {:induction false} RunInvariant(s: Session, events: seq<Event>)
    requires Valid(s)
    ensures Run(s, events).Running? ==>
      var t := Run(s, events).session;
      Valid(t) && t.test == s.test && t.remaining <= s.remaining && KeepsAnswers(s, t)
    ensures Run(s, events).Finished? ==>
      var score := Run(s, events).score;
      score.total == |s.test.questions| && score.correct <= score.total && 0 <= score.percent <= 100
    decreases |events|
  {
    if |events| > 0 {
      match Apply(s, events[0])
      case Running(t) =>
        RunInvariant(t, events[1..]);
      case Finished(_, _) =>
    }
  }

  /** The two-question example: answer both correctly and submit. */
  function ExampleTest(): (t: Test)
    ensures |t.questions| == 2 && t.timeSeconds == 2
  {
    Test("T", 2, [Question("Q1", ["A", "B"], 1), Question("Q2", ["X", "Y"], 0)])
  }

  /** Choosing the keyed options on both questions and submitting scores
      two out of two, one hundred percent. */
  lemma ExampleAllCorrect()
    ensures Start(ExampleTest()).Running?
    ensures Run(Start(ExampleTest()).session, [Choose(1), PressNext, Choose(0), PressSubmit])
      == Finished(Score(2, 2, 100), false)
  {
  }

  /** Submitting straight away scores zero out of two. */
  lemma ExampleNothingAnswered()
    ensures Start(ExampleTest()).Running?
    ensures Run(Start(ExampleTest()).session, [PressSubmit]) == Finished(Score(0, 2, 0), false)
  {
  }
}

=== FILE: loader.dfy ===
/** Default-filling done by `load_test_from_file` once the file has been
    read and parsed. Reading, decoding and JSON parsing are outside the
    model: the parsed document arrives as a record whose keys may each be
    missing, or as `None` when any of those earlier steps gave up. */
module Loader {
  import opened Wrappers
  import opened TestData

  /** The title used when the document has none. */
  const DefaultTitle: string := "Тест"
  /** The time limit, in seconds, used when the document has none. */
  const DefaultTimeSeconds: int := 300
  /** The answer key used when a question has none. */
  const DefaultAnswer: int := 0

  /** A question object as parsed: every key may be absent. */
  datatype RawQuestion = RawQuestion(text: Option<string>, options: Option<seq<string>>, answer: Option<int>)

  /** A test document as parsed: every top-level key may be absent. */
  datatype RawTest = RawTest(title: Option<string>, timeSeconds: Option<int>, questions: Option<seq<RawQuestion>>)

  /** The `KeyError` raised by `q["text"]` or `q["options"]`, with the
      position of the question that lacks the key. */
  datatype MissingKey = MissingText(at: nat) | MissingOptions(at: nat)

  /** What a load attempt ends in: no test (missing path, unreadable text,
      malformed JSON), an exception escaping the loader, or a test. */
  datatype LoadOutcome = Absent | Raised(error: MissingKey) | Loaded(test: Test)

  /** The question carries both keys that are read without a default. */
  predicate Complete(q: RawQuestion) {
    q.text.Some? && q.options.Some?
  }

  /** The key error for a question that is not complete: `text` is read
      before `options`. */
  function KeyErrorOf(q: RawQuestion, at: nat): (e: MissingKey)
    requires !Complete(q)
  {
    if q.text.None? then MissingText(at) else MissingOptions(at)
  }

  /** One question with the answer default applied. */
  function FillQuestion(q: RawQuestion): (r: Question)
    requires Complete(q)
  {
    Question(q.text.value, q.options.value, q.answer.GetOr(DefaultAnswer))
  }

  /** The list comprehension over the questions, which stops at the first
      key error; `offset` is the position of `qs[0]` in the whole list. */
  function FillQuestions(qs: seq<RawQuestion>, offset: nat): (r: Result<seq<Question>, MissingKey>)
    ensures r.Success? <==> forall i :: 0 <= i < |qs| ==> Complete(qs[i])
    ensures r.Success? ==> |r.value| == |qs|
    ensures r.Success? ==> forall i :: 0 <= i < |qs| ==> r.value[i] == FillQuestion(qs[i])
    ensures r.Failure? ==>
      exists i :: 0 <= i < |qs| && !Complete(qs[i]) && r.error == KeyErrorOf(qs[i], offset + i)
        && forall j :: 0 <= j < i ==> Complete(qs[j])
    decreases |qs|
  {
    if |qs| == 0 then Success([])
    else if !Complete(qs[0]) then Failure(KeyErrorOf(qs[0], offset))
    else
      match FillQuestions(qs[1..], offset + 1)
      case Failure(e) =>
        assert forall i :: 1 <= i < |qs| ==> qs[i] == qs[1..][i - 1];
        Failure(e)
      case Success(rest) =>
        assert forall i :: 1 <= i < |qs| ==> qs[i] == qs[1..][i - 1];
        Success([FillQuestion(qs[0])] + rest)
  }

  /** `load_test_from_file` after parsing: fills the defaults of
      "title", "time_seconds", "questions" and each "answer", and lets
      a question without "text" or "options" raise. */
  function LoadTest(doc: Option<RawTest>): (r: LoadOutcome)
    ensures r.Absent? <==> doc.None?
    ensures r.Raised? <==>
      (doc.Some? && doc.value.questions.Some?
       && exists i :: 0 <= i < |doc.value.questions.value| && !Complete(doc.value.questions.value[i]))
    ensures r.Loaded? ==> r.test.title == (if doc.value.title.Some? then doc.value.title.value else DefaultTitle)
    ensures r.Loaded? ==> r.test.timeSeconds == (if doc.value.timeSeconds.Some? then doc.value.timeSeconds.value else DefaultTimeSeconds)
    ensures r.Loaded? && doc.value.questions.None? ==> r.test.questions == []
    ensures r.Loaded? && doc.value.questions.Some? ==>
      |r.test.questions| == |doc.value.questions.value|
      && forall i :: 0 <= i < |r.test.questions| ==>
           var raw := doc.value.questions.value[i];
           var q := r.test.questions[i];
           q.text == raw.text.value && q.options == raw.options.value
           && q.answer == (if raw.answer.Some? then raw.answer.value else DefaultAnswer)
  {
    match doc
    case None => Absent
    case Some(raw) =>
      match FillQuestions(raw.questions.GetOr([]), 0)
      case Failure(e) => Raised(e)
      case Success(qs) =>
        Loaded(Test(raw.title.GetOr(DefaultTitle), raw.timeSeconds.GetOr(DefaultTimeSeconds), qs))
  }
}

=== FILE: quiz_session.dfy ===
/** The quiz-session state machine of `QuizFrame`, with the widgets
    stripped away: every handler becomes a pure step from one session
    state to the next. */
module QuizSession {
  import opened Wrappers
  import opened TestData
  import opened Scoring
  import Loader

  /** The value of the radio group's variable when no option is chosen. */
  const NoSelection: int := -1

  /** The frame's state: the test, the position `index` of the displayed
      question, the answer record (one entry per question), `pending`, the
      value held by the radio group's variable, and `remaining`, the
      countdown in seconds. */
  datatype Session = Session(test: Test, index: int, answers: seq<Option<int>>, pending: int, remaining: int)

  /** How a step of the environment ends: the session goes on, or it was
      submitted (by the submit button or because the time ran out). */
  datatype Step = Running(session: Session) | Finished(score: Score, timedOut: bool)

  /** The shape every session has: a non-empty test, one answer entry per
      question, and a displayed position inside the test. */
  predicate WellFormed(s: Session) {
    && |s.test.questions| >= 1
    && |s.answers| == |s.test.questions|
    && 0 <= s.index < |s.answers|
  }

  /** The radio-group value that displays a stored answer. */
  function Shown(a: Option<int>): (v: int) {
    if a.Some? then a.value else NoSelection
  }

  /** What holds of every session the quiz screen can reach: the countdown
      is not negative, every stored answer names an option of its question,
      and the radio group shows exactly the stored answer of the displayed
      question. */
  predicate Valid(s: Session) {
    && WellFormed(s)
    && s.remaining >= 0
    && (forall i :: 0 <= i < |s.answers| && s.answers[i].Some? ==> IsOption(s.test.questions[i], s.answers[i].value))
    && s.pending == Shown(s.answers[s.index])
  }

  /** `_display_question`: the radio group is reset to the stored answer of
      the displayed question, or to no selection. */
  function Display(s: Session): (r: Session)
    requires WellFormed(s)
    ensures WellFormed(r)
    ensures r.test == s.test && r.index == s.index && r.answers == s.answers && r.remaining == s.remaining
    ensures s.answers[s.index].Some? ==> r.pending == s.answers[s.index].value
    ensures s.answers[s.index].None? ==> r.pending == NoSelection
    ensures StoreAnswer(r).answers == r.answers
    ensures Valid(r) <==>
      (s.remaining >= 0
       && forall i :: 0 <= i < |s.answers| && s.answers[i].Some? ==> IsOption(s.test.questions[i], s.answers[i].value))
  {
    s.(pending := Shown(s.answers[s.index]))
  }

  /** The constructor: first question, nothing answered, the full time
      limit, then the first display. */
  function Init(test: Test): (s: Session)
    requires |test.questions| >= 1
    ensures WellFormed(s) && s.test == test
    ensures s.index == 0 && s.pending == NoSelection && s.remaining == test.timeSeconds
    ensures |s.answers| == |test.questions| && forall i :: 0 <= i < |s.answers| ==> s.answers[i].None?
    ensures test.timeSeconds >= 0 ==> Valid(s)
  {
    Display(Session(test, 0, seq(|test.questions|, _ => None), NoSelection, test.timeSeconds))
  }

  /** `_store_answer`: a chosen option is written into the entry of the
      displayed question; with no selection nothing is written, so a stored
      answer is never cleared. */
  function StoreAnswer(s: Session): (r: Session)
    requires WellFormed(s)
    ensures WellFormed(r)
    ensures r.test == s.test && r.index == s.index && r.pending == s.pending && r.remaining == s.remaining
    ensures |r.answers| == |s.answers|
    ensures forall i :: 0 <= i < |s.answers| && i != s.index ==> r.answers[i] == s.answers[i]
    ensures s.pending >= 0 ==> r.answers[s.index] == Some(s.pending)
    ensures s.pending < 0 ==> r.answers == s.answers
    ensures s.answers[s.index].Some? ==> r.answers[s.index].Some?
  {
    if s.pending >= 0 then s.(answers := s.answers[s.index := Some(s.pending)]) else s
  }

  /** In a reachable session the radio group already agrees with the record,
      so the store done before navigating or scoring changes nothing. */
  lemma StoreIsRedundant(s: Session)
    requires WellFormed(s)
    ensures Valid(s) ==> StoreAnswer(s) == s
  {
  }

  /** Clicking the radio button of option `k`: the variable takes `k` and
      the button's command stores it at once. */
  function Select(s: Session, k: int): (r: Session)
    requires WellFormed(s) && IsOption(s.test.questions[s.index], k)
    ensures WellFormed(r) && r.index == s.index && r.test == s.test && r.remaining == s.remaining
    ensures r.pending == k && r.answers[s.index] == Some(k)
    ensures |r.answers| == |s.answers|
    ensures forall i :: 0 <= i < |s.answers| && i != s.index ==> r.answers[i] == s.answers[i]
    ensures Valid(s) ==> Valid(r)
  {
    StoreAnswer(s.(pending := k))
  }

  /** Whether the "previous" button is enabled. */
  predicate PrevEnabled(s: Session) {
    s.index > 0
  }

  /** Whether the "next" button is enabled. */
  predicate NextEnabled(s: Session) {
    s.index < |s.test.questions| - 1
  }

  /** `_previous`: store, then move back one question unless already at the
      first one. */
  function Previous(s: Session): (r: Session)
    requires WellFormed(s)
    ensures WellFormed(r) && r.test == s.test && r.remaining == s.remaining
    ensures r.answers == StoreAnswer(s).answers
    ensures s.index > 0 ==> r.index == s.index - 1 && r.pending == Shown(r.answers[r.index])
    ensures s.index == 0 ==> r == StoreAnswer(s)
    ensures Valid(s) ==> Valid(r)
  {
    var t := StoreAnswer(s);
    if t.index > 0 then Display(t.(index := t.index - 1)) else t
  }

  /** `_next`: store, then move on one question unless already at the last
      one. */
  function Next(s: Session): (r: Session)
    requires WellFormed(s)
    ensures WellFormed(r) && r.test == s.test && r.remaining == s.remaining
    ensures r.answers == StoreAnswer(s).answers
    ensures s.index < |s.test.questions| - 1 ==> r.index == s.index + 1 && r.pending == Shown(r.answers[r.index])
    ensures s.index == |s.test.questions| - 1 ==> r == StoreAnswer(s)
    ensures Valid(s) ==> Valid(r)
  {
    var t := StoreAnswer(s);
    if t.index < |t.test.questions| - 1 then Display(t.(index := t.index + 1)) else t
  }

  /** A button is enabled exactly when pressing it changes the displayed
      question. */
  lemma ButtonsEnabledIffTheyMove(s: Session)
    requires WellFormed(s)
    ensures PrevEnabled(s) <==> Previous(s).index != s.index
    ensures NextEnabled(s) <==> Next(s).index != s.index
    ensures 0 <= Previous(s).index < |s.test.questions| && 0 <= Next(s).index < |s.test.questions|
  {
  }

  /** Choosing option `k`, then next, then previous keeps `k` stored for
      the question it was chosen on, wherever that question is. When "next"
      was enabled this returns to that question with `k` shown again; at the
      last question "next" stays put and "previous" moves one back. */
  lemma SelectNextPreviousRoundTrip(s: Session, k: int)
    requires WellFormed(s) && IsOption(s.test.questions[s.index], k)
    ensures Previous(Next(Select(s, k))).answers[s.index] == Some(k)
    ensures NextEnabled(s) ==>
      Previous(Next(Select(s, k))).index == s.index && Previous(Next(Select(s, k))).pending == k
    ensures !NextEnabled(s) ==>
      Previous(Next(Select(s, k))).index == (if s.index > 0 then s.index - 1 else s.index)
  {
  }

  /** In a reachable session, next then previous (and previous then next)
      gives back exactly the session it started from. */
  lemma NavigationRoundTrip(s: Session)
    requires Valid(s)
    ensures NextEnabled(s) ==> Previous(Next(s)) == s
    ensures PrevEnabled(s) ==> Next(Previous(s)) == s
  {
  }

  /** `_submit`: store the selection, then score the record. */
  function Submit(s: Session): (r: Score)
    requires WellFormed(s)
    ensures r.total == |s.test.questions| && r.correct <= r.total && 0 <= r.percent <= 100
    ensures r.correct == |CorrectIndices(s.test.questions, StoreAnswer(s).answers)|
    ensures r.percent == Percent(r.correct, r.total)
    ensures Valid(s) ==> r == ScoreOf(s.test.questions, s.answers)
  {
    var t := StoreAnswer(s);
    CountIsCardinality(t.test.questions, t.answers);
    StoreIsRedundant(s);
    ScoreOf(t.test.questions, t.answers)
  }

  /** `_tick`: at zero or below the test is submitted automatically and the
      countdown is left alone; otherwise one second is taken off. */
  function Tick(s: Session): (r: Step)
    requires WellFormed(s)
    ensures s.remaining <= 0 ==> r == Finished(Submit(s), true)
    ensures s.remaining > 0 ==> r.Running? && r.session == s.(remaining := s.remaining - 1)
    ensures r.Running? && Valid(s) ==> Valid(r.session)
  {
    if s.remaining <= 0 then Finished(Submit(s), true)
    else Running(s.(remaining := s.remaining - 1))
  }

  /** Minutes and seconds for the timer label, by floor division by 60
      (Python's floor division agrees with Dafny's for a positive divisor). */
  function Clock(remaining: int): (r: (int, int))
    ensures r.0 * 60 + r.1 == remaining && 0 <= r.1 < 60
  {
    (remaining / 60, remaining % 60)
  }

  /** Building the frame: the session is initialised and the timer's first
      tick runs straight away. A limit of zero or less submits an empty
      record at once; otherwise one second is already gone. */
  function Start(test: Test): (r: Step)
    requires |test.questions| >= 1
    ensures test.timeSeconds <= 0 ==>
      (r.Finished? && r.timedOut && r.score.correct == 0 && r.score.percent == 0
       && r.score.total == |test.questions|)
    ensures test.timeSeconds > 0 ==>
      (r.Running? && Valid(r.session) && r.session.test == test && r.session.remaining == test.timeSeconds - 1
       && r.session.index == 0 && forall i :: 0 <= i < |r.session.answers| ==> r.session.answers[i].None?)
  {
    var s := Init(test);
    NothingAnsweredScoresZero(s);
    Tick(s)
  }

  /** A session whose record is empty and whose radio group is clear scores
      zero. */
  lemma NothingAnsweredScoresZero(s: Session)
    requires WellFormed(s) && s.pending < 0
    requires forall i :: 0 <= i < |s.answers| ==> s.answers[i].None?
    ensures Submit(s).correct == 0 && Submit(s).percent == 0
  {
  }

  /** `_start_test` after loading: a session is built only from a loaded
      test that has at least one question. Otherwise no session starts: a
      missing or empty test gets the error dialog, and a key error raised by
      the loader escapes `_start_test` for Tk to report. */
  function StartTest(loaded: Loader.LoadOutcome): (r: Option<Step>)
    ensures r.Some? <==> loaded.Loaded? && |loaded.test.questions| >= 1
    ensures r.Some? ==> r.value == Start(loaded.test)
  {
    if loaded.Loaded? && |loaded.test.questions| > 0 then Some(Start(loaded.test)) else None
  }
}

=== FILE: scoring.dfy ===
/** The result computed by `QuizFrame._submit`: how many stored answers
    match their question's answer key, out of how many, as a percentage. */
module Scoring {
  import opened Wrappers
  import opened TestData

  /** What the result dialog shows. */
  datatype Score = Score(correct: nat, total: nat, percent: int)

  /** An answer counts when one is stored and it equals the answer key. */
  predicate IsCorrect(q: Question, a: Option<int>) {
    a.Some? && a.value == q.answer
  }

  /** The positions whose stored answer counts. */
  ghost function CorrectIndices(qs: seq<Question>, answers: seq<Option<int>>): (indices: set<nat>)
    requires |answers| == |qs|
  {
    set i: nat | i < |qs| && IsCorrect(qs[i], answers[i])
  }

  /** Reference count of the correct answers, last question first. */
  function CountCorrect(qs: seq<Question>, answers: seq<Option<int>>): (c: nat)
    requires |answers| == |qs|
    ensures c <= |qs|
    ensures c == |qs| <==> forall i :: 0 <= i < |qs| ==> IsCorrect(qs[i], answers[i])
  {
    if |qs| == 0 then 0
    else
      var n := |qs| - 1;
      var c' := CountCorrect(qs[..n], answers[..n]);
      assert forall i :: 0 <= i < n ==> qs[..n][i] == qs[i] && answers[..n][i] == answers[i];
      c' + (if IsCorrect(qs[n], answers[n]) then 1 else 0)
  }

  /** The count is the number of correct positions. */
  lemma {:induction false} CountIsCardinality(qs: seq<Question>, answers: seq<Option<int>>)
    requires |answers| == |qs|
    ensures CountCorrect(qs, answers) == |CorrectIndices(qs, answers)|
  {
    if |qs| > 0 {
      var n := |qs| - 1;
      CountIsCardinality(qs[..n], answers[..n]);
      CorrectIndicesOfPrefix(qs, answers);
    }
  }

  /** The correct positions of a record are those of its prefix without
      the last question, plus the last one when it is correct. */
  lemma CorrectIndicesOfPrefix(qs: seq<Question>, answers: seq<Option<int>>)
    requires |answers| == |qs| > 0
    ensures var n := |qs| - 1;
      CorrectIndices(qs, answers)
        == CorrectIndices(qs[..n], answers[..n]) + (if IsCorrect(qs[n], answers[n]) then {n} else {})
  {
    var n := |qs| - 1;
    forall i: nat | i < n
      ensures qs[..n][i] == qs[i] && answers[..n][i] == answers[i]
    {
    }
  }

  /** The percentage shown in the result dialog: zero for an empty test,
      otherwise the whole part of correct/total*100, computed here by exact
      floor division where the source divides in floating point. */
  function Percent(correct: nat, total: nat): (p: int)
    ensures total == 0 ==> p == 0
    ensures total > 0 ==> p * total <= correct * 100 < (p + 1) * total
    ensures correct <= total ==> 0 <= p <= 100
    ensures correct <= total && total > 0 ==> (p == 100 <==> correct == total)
  {
    if total > 0 then
      var p := correct * 100 / total;
      FloorDivision(correct * 100, total, p);
      PercentRange(correct, total, p);
      p
    else 0
  }

  /** `q` is the floor of `a / b`. */
  lemma FloorDivision(a: nat, b: nat, q: int)
    requires b > 0 && q == a / b
    ensures q * b <= a < (q + 1) * b
  {
    assert a == q * b + a % b;
    assert (q + 1) * b == q * b + b;
  }

  /** The floor of a percentage of a part of a whole lies in [0,100] and
      reaches 100 exactly for the whole. */
  lemma PercentRange(correct: nat, total: nat, p: int)
    requires total > 0 && p * total <= correct * 100 < (p + 1) * total
    ensures correct <= total ==> 0 <= p <= 100
    ensures correct <= total ==> (p == 100 <==> correct == total)
  {
    PositiveProduct(p + 1, total);
    PositiveProduct(p - 100, total);
    PositiveProduct(p - 99, total);
    assert (p - 100) * total == p * total - 100 * total;
    assert (p - 99) * total == (p + 1) * total - 100 * total;
  }

  /** With a positive factor, a product is positive exactly when the other
      factor is. */
  lemma PositiveProduct(a: int, b: int)
    requires b > 0
    ensures a * b > 0 <==> a > 0
  {
    if a > 0 {
      NaturalProduct(a - 1, b);
      assert a * b == (a - 1) * b + b;
    } else {
      NaturalProduct(-a, b);
      assert a * b == -((-a) * b);
    }
  }

  /** A product of naturals is a natural. */
  lemma {:induction false} NaturalProduct(x: nat, y: nat)
    ensures x * y >= 0
  {
    if x > 0 {
      NaturalProduct(x - 1, y);
      assert x * y == (x - 1) * y + y;
    }
  }

  /** The score of an answer record against the questions. */
  function ScoreOf(qs: seq<Question>, answers: seq<Option<int>>): (r: Score)
    requires |answers| == |qs|
    ensures r.total == |qs|
    ensures r.correct <= r.total
    ensures 0 <= r.percent <= 100
    ensures r.correct == |CorrectIndices(qs, answers)|
    ensures r.percent == Percent(r.correct, r.total)
    ensures r.percent == 100 <==> |qs| > 0 && forall i :: 0 <= i < |qs| ==> IsCorrect(qs[i], answers[i])
  {
    var c := CountCorrect(qs, answers);
    CountIsCardinality(qs, answers);
    Score(c, |qs|, Percent(c, |qs|))
  }

  /** A question whose answer key names no option never counts, as long as
      the stored answers name options (which the quiz screen guarantees). */
  lemma OutOfRangeKeyNeverCounts(q: Question, a: Option<int>)
    requires a.Some? ==> IsOption(q, a.value)
    requires !IsOption(q, q.answer)
    ensures !IsCorrect(q, a)
  {
  }

  /** The loop of `_submit`, walking the questions in order. */
  method Tally(qs: seq<Question>, answers: seq<Option<int>>) returns (r: Score)
    requires |answers| == |qs|
    ensures r.correct == |CorrectIndices(qs, answers)|
    ensures r == ScoreOf(qs, answers)
  {
    var correct: nat := 0;
    var i := 0;
    while i < |qs|
      invariant 0 <= i <= |qs|
      invariant correct == CountCorrect(qs[..i], answers[..i])
    {
      assert qs[..i + 1][..i] == qs[..i] && answers[..i + 1][..i] == answers[..i];
      if answers[i].Some? && answers[i].value == qs[i].answer {
        correct := correct + 1;
      }
      i := i + 1;
    }
    assert qs[..i] == qs && answers[..i] == answers;
    CountIsCardinality(qs, answers);
    var total := |qs|;
    var percent := if total > 0 then correct * 100 / total else 0;
    r := Score(correct, total, percent);
  }
}

=== FILE: test_data.dfy ===
/** The immutable test definition a quiz session runs on
    (`Question` and `TestData` in Praktic_6.py). */
module TestData {

  /** One multiple-choice question. `answer` is meant to index `options`,
      but nothing enforces that: an out-of-range key simply never matches. */
  datatype Question = Question(text: string, options: seq<string>, answer: int)

  /** A loaded test: title, time limit in seconds (any integer, the file may
      hold a negative one) and the ordered questions. */
  datatype Test = Test(title: string, timeSeconds: int, questions: seq<Question>)

  /** `index` names one of the options of `q`, i.e. one of the radio buttons
      the quiz screen builds for it. */
  predicate IsOption(q: Question, index: int) {
    0 <= index < |q.options|
  }
}

=== FILE: wrappers.dfy ===
/** Optional values and success/failure results, used for the loader's
    optional fields, the answer record and the loader's error path. */
module Wrappers {

  /** Python's `None` or a present value. */
  datatype Option<+T> = None | Some(value: T) {

    /** The value, or `default` when absent (Python's `dict.get(key, default)`). */
    function GetOr(default: T): (r: T)
      ensures Some? ==> r == value
      ensures None? ==> r == default
    {
      match this
      case Some(v) => v
      case None => default
    }
  }

  datatype Result<+R, +E> = Success(value: R) | Failure(error: E)
}
